=== FILE: README.md ===
# AnomalyDetectionPy in Dafny

This project models the streaming core of AnomalyDetectionPy and proves
properties of the model. The core has five parts:

- Three anomaly detectors (`anomaly_detector.py`). Each takes one reading per
  call and returns a `DetectionResult(expected_val, safe_dist, distance,
  is_anomaly)`:
  - the sliding-window z-score detector (`MovingAverageAnomalyDetector`);
  - the exponential-moving-average detector
    (`ExponentialMovingAverageAnomalyDetector`);
  - the probabilistic EWMA detector (`PEWMAAnomalyDetector`).
- The statistics helpers `arr_mean` and `arr_std`.
- The spike injector (`RandomizedSpikeAnomalyAdder` in `anomaly_generator.py`).
- One call of `SimulationManager.step` (`simulation_manager.py`).

The modules follow the program:

| module | file | models |
|---|---|---|
| `Results` | results.dfy | Python exceptions as `Err(ZeroDivisionError)` / `Err(MathDomainError)` |
| `Stats` | stats.dfy | `arr_mean`, `arr_std`, and the real-number facts the detectors rest on |
| `Detection` | detection.dfy | `DetectionResult` and the shared `is_anomaly` |
| `SlidingWindow` | sliding_window.dfy | `MovingAverageAnomalyDetector` |
| `Ema` | ema.dfy | `ExponentialMovingAverageAnomalyDetector` |
| `Pewma` | pewma.dfy | `PEWMAAnomalyDetector` |
| `SpikeAdder` | spike_adder.dfy | `RandomizedSpikeAnomalyAdder` |
| `Ints` | ints.dfy | `Min` and `Max` on integers, used by the window-length contracts |
| `Simulation` | simulation.dfy | `Point` and `SimulationManager.step` |

How the model stands in for things it cannot compute:

- **Numbers.** Floats are modelled as mathematical reals.
- **Detector state.** Each detector is an immutable state record with a pure
  `Update` function. `Update` returns the next state and the result.
- **Square roots.** Wherever the code calls `math.sqrt`, the caller supplies
  the result as `root`. The precondition `IsRoot(v, root)` says that `root` is
  non-negative and squares to `v`.
- **The PEWMA density.** PEWMA computes `exp(-zt²/2)/sqrt(2π)`. Its value
  `pt` is also a parameter, and is only required to lie in [0, 0.4].
- **Exceptions.** A call that would raise returns a `Result` error naming the
  exception.

The z-score bound:

- The sliding window scores the newest reading against the mean and standard
  deviation of a window that already contains it. So that reading's z-score
  can never exceed `sqrt(n - 1)` in magnitude, where `n` is the window length
  (`SlidingWindow.ZScoreBound`).
- Consequence: a window of at most ten readings is never flagged at threshold
  3 (`SlidingWindow.SmallWindowNeverFlags`).
- For example, the window `[1, 1, 100]` scores its newest reading at exactly
  `sqrt 2`, so it is not flagged at threshold 3.

## Model

| member | source | states |
|---|---|---|
| `Detection.IsAnomaly` | anomaly_detector.py:140-141 | A score is anomalous exactly when it lies outside the closed band [-threshold, threshold]. |
| `Stats.Mean` | anomaly_detector.py:6-16 | `arr_mean` of a non-empty list is the value that, taken once per reading, adds up to the list's sum. |
| `Stats.DevSumAtMean` | anomaly_detector.py:6-16 | The readings' deviations from `arr_mean` sum to zero. |
| `Stats.MeanBetween` | anomaly_detector.py:6-16 | `arr_mean` of a non-empty list whose readings all lie in [lo, hi] lies in [lo, hi]. |
| `Stats.PopVariance` | anomaly_detector.py:19-30 | The radicand `arr_std` passes to `math.sqrt`, the mean squared deviation from `arr_mean`, is never negative. |
| `Stats.VarianceZeroIffConstant` | anomaly_detector.py:19-30 | The radicand of `arr_std`, the population variance, is never negative, so `arr_std` cannot raise. It is zero exactly when all readings are equal. |
| `Stats.NewestDeviationBound` | anomaly_detector.py:19-30 | Bounds the last reading's squared deviation by its share of the sum of squared deviations: n·(x_n − mean)² ≤ (n − 1)·Σ(x − mean)². |
| `Stats.CauchySchwarz` | anomaly_detector.py:19-30 | (Σ(x − m))² ≤ n·Σ(x − m)² for any centre m. This is the step behind the deviation bound. |
| `Stats.ConvexKeepsSpread` | anomaly_detector.py:276-277 | A convex blend of a first and a second moment, weight in [0, 1], keeps the second moment at least the first moment squared. |
| `Stats.BlendBetween` | anomaly_detector.py:176-176 | With a weight in [0, 1], the blended value lies between the old value and the new reading. |
| `SlidingWindow.Slide` | anomaly_detector.py:121-125 | The window after appending: the whole extended window while below the size, otherwise the extended window minus its oldest reading. The newest reading is always last. |
| `SlidingWindow.Fill` | anomaly_detector.py:117-125 | Starting from the empty window with size ≥ 1, after k readings the window holds min(k, size) readings and the newest is last. |
| `SlidingWindow.FillKeepsNewest` | anomaly_detector.py:117-125 | Starting from the empty window with size ≥ 1, after any sequence of readings the window is exactly the last min(k, size) readings, in arrival order. |
| `SlidingWindow.Update` | anomaly_detector.py:119-138 | The result depends on the window after the reading is added. It is an error (division by zero in `arr_mean`) exactly when that window is empty. If the window is constant, the result is `(x, 0, 0, False)`; a first call always has a one-reading, constant window. Otherwise `distance·std = x − mean`, `safe_dist = std·threshold` and the verdict is `is_anomaly(distance)` for every threshold. For threshold ≥ 0, `safe_dist ≥ 0`, and the verdict is `is_anomaly(distance)` in the constant case too. |
| `SlidingWindow.ZScoreBound` | anomaly_detector.py:128-135 | The returned z-score squared is at most (window length − 1). |
| `SlidingWindow.SmallWindowNeverFlags` | anomaly_detector.py:128-138 | With at most 10 readings in the window and threshold ≥ 3, no reading is flagged. |
| `Ema.StdDev` | anomaly_detector.py:184-187 | The standard deviation is always positive. It squares to the variance when the variance is positive and is the 1e-6 floor otherwise. |
| `Ema.Scored` | anomaly_detector.py:189-194 | For a positive std: `expected_val` is the new ema, `distance ≥ 0` with `distance·std = abs(x − ema)`, `safe_dist = std·threshold`, and the verdict is `is_anomaly(distance)`. |
| `Ema.Track` | anomaly_detector.py:175-194 | A later call given its std: the state becomes `ema = alpha·x + (1 − alpha)·ema` and `ema_squared = alpha·x² + (1 − alpha)·ema_squared`. For 0 ≤ alpha ≤ 1 the new ema lies between the old ema and x. The result is scored against the new ema as in `Ema.Scored`. |
| `Ema.Update` | anomaly_detector.py:167-195 | The first call records `ema = x`, `ema_squared = x²` and returns exactly `(x, 0, 0, False)`. Every later call is `Ema.Track` with the std of `Ema.StdDev`. |
| `Ema.StdMatchesState` | anomaly_detector.py:176-187 | When the variance is positive, the std a call scores with squares to `ema_squared − ema²` of the state that call stores. |
| `Ema.SmoothBetween` | anomaly_detector.py:176-176 | With alpha in [0, 1], the smoothed value lies between the old value and the reading. |
| `Ema.VarianceNonNegative` | anomaly_detector.py:176-184 | For consistent moments and 0 ≤ alpha ≤ 1, the variance estimate is never negative. |
| `Ema.EmaKeepsSpread` | anomaly_detector.py:176-181 | For 0 ≤ alpha ≤ 1, every update keeps `ema_squared ≥ ema²`. |
| `Ema.FloorOnlyOnExactFit` | anomaly_detector.py:184-195 | For consistent moments and 0 < alpha ≤ 1, a non-positive variance means the reading equals the new ema. So a floored call scores 0 and, for threshold ≥ 0, is not flagged. |
| `Pewma.Started` | anomaly_detector.py:254-260 | Unset moments become `(x, x², x)` on the first reading; set moments are kept. |
| `Pewma.AlphaT` | anomaly_detector.py:271-274 | `alpha_t` lies in [0, 1) while training. Afterwards it lies in [0, 1] when alpha and beta are in [0, 1]. |
| `Pewma.ZScore` | anomaly_detector.py:264-267 | `zt` is 0 when the standard deviation is 0. Otherwise `zt·std = x − mean`. |
| `Pewma.Absorb` | anomaly_detector.py:276-279 | `s1` and `s2` become the `alpha_t`-weighted blends of the old moments with x and x², and `mean` follows `s1`. For `alpha_t` in [0, 1] the new `s1` lies between the old one and x, and `s2 ≥ s1²` is kept. |
| `Pewma.Score` | anomaly_detector.py:262-287 | The step after the square root: the new state carries the given step counter and the moments `Absorb(alpha_t, …)` with the schedule's `alpha_t`; `mean == s1 == expected_val`, and `safe_dist = std·threshold` with the std of the prior moments. `zt·std = x − prior mean`, or `zt = 0` when std is 0. The verdict is False while `steps < training_steps` and `is_anomaly(zt)` from then on. |
| `Pewma.Update` | anomaly_detector.py:242-287 | Raises a math domain error exactly when `s2 − s1²` is negative. Otherwise the result is `Pewma.Score` taken at the next step counter, on the started moments, with the std computed before the update. |
| `Pewma.UpdateOk` | anomaly_detector.py:242-287 | A call that does not raise: `steps` grows by exactly 1, and the moments are the started ones blended by `Absorb` with `alpha_t` for the new step counter. `mean == s1 == expected_val`. `safe_dist = std·threshold` with the std computed before the update, and `zt·std = x − prior mean` (or 0 when std is 0). The verdict is False while training and `is_anomaly(zt)` afterwards. |
| `Pewma.FirstCall` | anomaly_detector.py:252-267 | On unset moments the radicand is 0. The call succeeds with moments `(x, x², x)`, expected value x, distance 0 and safe_dist 0. For threshold ≥ 0 it is not flagged. |
| `Pewma.MeanMovesTowardReading` | anomaly_detector.py:271-281 | The new `s1`, which is `expected_val`, lies between the prior `s1` and the reading: always while training, and after training when alpha and beta are in [0, 1]. |
| `Pewma.PewmaKeepsValid` | anomaly_detector.py:262-279 | With alpha and beta in [0, 1], every update from consistent moments (`mean == s1`, `s2 ≥ s1²`) succeeds and keeps them consistent. So the unclamped `math.sqrt` never raises over the reals. |
| `Pewma.TrainingMean` | anomaly_detector.py:271-277 | While training, `s1` is the arithmetic mean of every reading seen so far. |
| `SpikeAdder.Initial` | anomaly_generator.py:62-67 | A new adder is idle, with its clock and last spike time at 0 and the constructor's drawn gap. |
| `SpikeAdder.SpikeAmp` | anomaly_generator.py:118-127 | Both branches agree with the closed-form triangle `amp·(1 − abs(e − d/2)/(d/2))`. |
| `SpikeAdder.SpikeAmpShape` | anomaly_generator.py:118-127 | For duration > 0: amplitude 0 at elapsed 0 and at the full duration, the signed peak at half the duration, and mirror symmetry about the midpoint. |
| `SpikeAdder.SpikeAmpBounded` | anomaly_generator.py:118-127 | For 0 ≤ elapsed ≤ duration, the amplitude's magnitude is at most the peak's. |
| `SpikeAdder.AddAnomaly` | anomaly_generator.py:145-163 | The clock advances by exactly delta. A spike ends once its duration has elapsed: the call stops applying, stamps the time and returns (0, False). A spike starts once the gap has elapsed: the call adopts the drawn values, stamps the time and returns (0, False). The flag is set exactly when applying with elapsed < duration, and the amplitude is 0 whenever the flag is clear. The call divides by zero exactly when applying a zero-length spike at negative elapsed time. |
| `SpikeAdder.AmplitudeBounded` | anomaly_generator.py:145-163 | With delta ≥ 0 and the clock not behind the last spike boundary: no call raises, the invariant is kept, and the added amplitude never exceeds the current peak in magnitude. |
| `Simulation.Tick` | simulation_manager.py:80-96 | One pass of the loop: the counter grows by 1, the clock by delta, and the window is untouched. The point is stamped with the clock before the pass, valued at the generator value plus the injected amplitude, flagged as the injector said, and carries the last detection. A sampled pass calls the detector and records its state and result; any other pass keeps both. |
| `Simulation.Run` | simulation_manager.py:79-96 | The loop makes exactly one point per input. |
| `Simulation.Trim` | simulation_manager.py:98-100 | The retained window is the newest min(length, max(window_max, 0)) points, in order. |
| `Simulation.Step` | simulation_manager.py:67-102 | Raises a division by zero exactly when there are points to make and `every_n_sample` is 0. Otherwise: `steps` grows by n and `t` by n·delta. The window is the trimmed old window plus the new points, its length is at most max(window_max, 0), and the whole window is what `step` returns. |
| `Simulation.RunAdvances` | simulation_manager.py:79-96 | The loop makes one point per input, advances the counter by 1 and the clock by delta per point, and leaves the window alone. |
| `Simulation.RunPoint` | simulation_manager.py:80-95 | Point i is stamped `t + i·delta` and valued at generator value plus injected amplitude. It carries the injector's flag and is made at step counter `steps + i`. |
| `Simulation.RunDetection` | simulation_manager.py:84-92 | On a sampled step, point i carries the detector's fresh result for its value, computed from the detector state the earlier points left. Otherwise it repeats the previous detection and the detector state is unchanged. |
| `Simulation.FreshShowsResults` | simulation_manager.py:62-92 | On a fresh manager every point of the first call carries a detection. |
| `Simulation.EveryPointHasResult` | simulation_manager.py:62-92 | If the first point of a call is sampled (as on a fresh manager, whose counter is 0) or a detection already exists, no point carries a missing result. |
| `Simulation.FreshAllShown` | simulation_manager.py:60-65 | A fresh manager, with counter 0 and an empty window, starts in the shown state: its next step is sampled and its window holds no point without a detection. |
| `Simulation.StepKeepsAllShown` | simulation_manager.py:79-100 | The shown state is kept by every call of `step`: if a detection exists or the next step is sampled, and every point in the window carries a detection, then after the loop and the trim the same holds of the new state. So no point `step` ever returns lacks a detection. |

## Left out

- `gui.py`: the tkinter and matplotlib front end and its timer are outside the core.
- `stream_generator.py`: the sine-plus-noise signal is random and transcendental. `step` takes the generator's values as the input `gen`.
- Random draws (anomaly_generator.py:77-103): the gap, duration and signed amplitude drawn when a spike starts are the `Draw` parameter. The draw drawn by the constructor is the `gap` argument of `SpikeAdder.Initial`. The draw ranges are not modelled.
- IEEE-754 rounding: readings are exact reals. Over floats, the unclamped `math.sqrt(s2 - s1**2)` in PEWMA can see a tiny negative radicand from rounding. Likewise, in the EMA detector `ema_squared - ema**2` can cancel to 0 or below while the reading still differs from the ema, and the 1e-6 floor then turns the score into `abs(x - ema)/1e-6`; `Ema.FloorOnlyOnExactFit` holds over exact reals only. In the sliding-window detector, a constant window such as `[0.1, 0.1, 0.1]` has the float mean `0.10000000000000002` and a float std near `1.4e-17` rather than 0. The `std == 0` branch (anomaly_detector.py:131) is then skipped and the reading scores `z = -1.0` instead of returning `(x, 0, 0, False)`. So the constant-window clause of `SlidingWindow.Update` holds over exact reals only. The model cannot show any of these.
- `math.sqrt` and `math.exp` are not computed. Their results are the parameters `root` and `pt`.
- Pewma.Update: `pt` is only constrained to [0, 0.4]. It is not tied to `zt`, so the model does not check the Gaussian density formula.
- `datetime` timestamps: a point's time is the real offset `t` in hours rather than `start_time + timedelta(hours=t)`.
- The shared mutable default arguments of `SimulationManager.__init__` (simulation_manager.py:38-40) are left out. The manager's state is a value, and its fresh state is `Simulation.Fresh`.
- Simulation.Step: the detector is a total function, so an exception raised inside `update_reading` during `step` is not propagated. Each detector's own `Update` says when it raises. The injector's outputs are also inputs, so its exceptions are not reached either.
- Simulation.Step: `n` is the number of supplied inputs, so it is never negative. A negative `n` makes `range(n)` empty and behaves like `n = 0`, which the model covers.
- Simulation.Step: the model tests the sampling period with Dafny's `%`, which is Euclidean; Python floors. The two agree on whether the remainder is zero, which is all the code tests.
- Partial updates before an exception are not modelled. PEWMA has already bumped `steps` and initialised its moments when `math.sqrt` raises. `add_anomaly` has already advanced `t` when the amplitude division raises. `step` has already advanced the generator and the injector when the modulo raises. The model returns only the error.
- PEWMA's stored `std` attribute: every call overwrites it before reading it, so the model does not keep it as state. It appears only as `root`.
- The abstract base classes and the three identical `is_anomaly` methods are covered by the single `Detection.IsAnomaly`.

=== FILE: detection.dfy ===
/**
 * The value every detector returns (`DetectionResult` in
 * anomaly_detector.py) and the verdict predicate all three detectors share
 * (`is_anomaly`).
 */
module Detection {

  /**
   * One evaluation outcome: the model's estimate of the normal value, the
   * tolerance half-width (spread times threshold), the z-score of the
   * reading and the verdict.
   */
  datatype DetectionResult = DetectionResult(
    expected: real,
    safeDist: real,
    distance: real,
    isAnomaly: bool)

  /** A detector's state after one reading, paired with the result for that reading. */
  datatype Updated<S> = Updated(state: S, result: DetectionResult)

  function Abs(x: real): real
  {
    if x < 0.0 then -x else x
  }

  /**
   * `is_anomaly`, identical in all three detectors: `abs(z) > threshold`.
   * A score is anomalous exactly when it lies outside the closed band
   * [-threshold, threshold].
   */
  predicate IsAnomaly(threshold: real, z: real)
    ensures IsAnomaly(threshold, z) <==> !(-threshold <= z <= threshold)
  {
    Abs(z) > threshold
  }
}

=== FILE: ema.dfy ===
/**
 * The exponential-moving-average detector
 * (`ExponentialMovingAverageAnomalyDetector` in anomaly_detector.py): a
 * running mean and running mean of squares, both exponentially smoothed, with
 * the standard deviation floored away from zero.
 */
module Ema {
  import opened Stats
  import opened Detection

  /** Construction-time parameters; the code applies no validation to either. */
  datatype Config = Config(alpha: real, threshold: real)

  /** Before the first reading nothing is tracked; afterwards both moments are. */
  datatype State = Unset | Tracking(ema: real, emaSq: real)

  /** The standard deviation used when the variance estimate is not positive. */
  const StdFloor: real := 0.000001

  /** The smoothing step of the code: `alpha` on the new value, `1 - alpha` on the history. */
  function Smooth(alpha: real, prev: real, v: real): real
  {
    alpha * v + (1.0 - alpha) * prev
  }

  /** Smoothing by `alpha` is the convex blend that keeps `1 - alpha` of the history. */
  lemma SmoothIsBlend(alpha: real, prev: real, v: real)
    ensures Smooth(alpha, prev, v) == Blend(1.0 - alpha, prev, v)
  {
  }

  /** With a weight in [0, 1] the smoothed value lies between the history and the new value. */
  lemma SmoothBetween(alpha: real, prev: real, v: real)
    ensures 0.0 <= alpha <= 1.0 ==>
              (prev <= v ==> prev <= Smooth(alpha, prev, v) <= v) &&
              (v <= prev ==> v <= Smooth(alpha, prev, v) <= prev)
  {
    SmoothIsBlend(alpha, prev, v);
    BlendBetween(1.0 - alpha, prev, v);
  }

  /** The variance estimate computed from the moments after the reading `x`. */
  function Variance(c: Config, ema: real, emaSq: real, x: real): real
  {
    var e := Smooth(c.alpha, ema, x);
    Smooth(c.alpha, emaSq, x * x) - e * e
  }

  /** Whether the update takes a square root (a non-first call with positive variance). */
  predicate NeedsRoot(c: Config, s: State, x: real)
  {
    s.Tracking? && Variance(c, s.ema, s.emaSq, x) > 0.0
  }

  /**
   * The standard deviation of a non-first call: the square root of a
   * positive variance estimate, and the floor otherwise. Never zero, so the
   * z-score division is always defined.
   */
  function StdDev(c: Config, s: State, x: real, root: real): (sd: real)
    requires s.Tracking?
    requires NeedsRoot(c, s, x) ==> IsRoot(Variance(c, s.ema, s.emaSq, x), root)
    ensures sd > 0.0
    ensures NeedsRoot(c, s, x) ==> Square(sd) == Variance(c, s.ema, s.emaSq, x)
    ensures !NeedsRoot(c, s, x) ==> sd == StdFloor
  {
    if Variance(c, s.ema, s.emaSq, x) > 0.0 then
      RootZeroIff(Variance(c, s.ema, s.emaSq, x), root);
      root
    else
      StdFloor
  }

  /**
   * The result of a non-first call: the absolute z-score of `x` against the
   * new mean `e`, with the positive standard deviation `sd`.
   */
  function Scored(threshold: real, x: real, e: real, sd: real): (r: DetectionResult)
    requires sd > 0.0
    ensures r.expected == e && r.safeDist == sd * threshold
    ensures r.distance >= 0.0 && r.distance * sd == Abs(x - e)
    ensures r.isAnomaly == IsAnomaly(threshold, r.distance)
  {
    DivTimes(Abs(x - e), sd);
    DivNonNegative(Abs(x - e), sd);
    var z := Abs(x - e) / sd;
    DetectionResult(e, sd * threshold, z, Abs(z) > threshold)
  }

  /**
   * A non-first call given its standard deviation `sd`: both moments are
   * smoothed, and the reading is scored against the new mean, which lies
   * between the old mean and the reading when the weight is in [0, 1].
   */
  function Track(c: Config, ema: real, emaSq: real, x: real, sd: real): (u: Updated<State>)
    requires sd > 0.0
    ensures u.state == Tracking(Smooth(c.alpha, ema, x), Smooth(c.alpha, emaSq, x * x))
    ensures u.result.expected == u.state.ema
    ensures 0.0 <= c.alpha <= 1.0 ==>
              (ema <= x ==> ema <= u.result.expected <= x) &&
              (x <= ema ==> x <= u.result.expected <= ema)
    ensures u.result.distance >= 0.0 &&
            u.result.distance * sd == Abs(x - u.result.expected) &&
            u.result.safeDist == sd * c.threshold
    ensures u.result.isAnomaly == IsAnomaly(c.threshold, u.result.distance)
  {
    SmoothBetween(c.alpha, ema, x);
    var e := Smooth(c.alpha, ema, x);
    Updated(Tracking(e, Smooth(c.alpha, emaSq, x * x)), Scored(c.threshold, x, e, sd))
  }

  /**
   * `update_reading`. The first call only records the reading and reports
   * nothing; every later call is `Track` with the floored standard deviation
   * of the new moments.
   */
  function Update(c: Config, s: State, x: real, root: real): (u: Updated<State>)
    requires NeedsRoot(c, s, x) ==> IsRoot(Variance(c, s.ema, s.emaSq, x), root)
    ensures u.state.Tracking?
    ensures s.Unset? ==> u == Updated(Tracking(x, x * x), DetectionResult(x, 0.0, 0.0, false))
    ensures s.Tracking? ==> u == Track(c, s.ema, s.emaSq, x, StdDev(c, s, x, root))
  {
    match s
    case Unset =>
      Updated(Tracking(x, x * x), DetectionResult(x, 0.0, 0.0, false))
    case Tracking(ema, emaSq) =>
      Track(c, ema, emaSq, x, StdDev(c, s, x, root))
  }

  /**
   * The standard deviation a call scores with is the one its own new moments
   * describe: when the variance is positive it squares to
   * `ema_squared - ema**2` of the state the call stores.
   */
  lemma StdMatchesState(c: Config, s: State, x: real, root: real)
    requires NeedsRoot(c, s, x) ==> IsRoot(Variance(c, s.ema, s.emaSq, x), root)
    requires NeedsRoot(c, s, x)
    ensures var u := Update(c, s, x, root);
            Square(StdDev(c, s, x, root)) == u.state.emaSq - u.state.ema * u.state.ema
  {
  }

  /** The moments are consistent: the mean of squares is at least the squared mean. */
  predicate Valid(s: State)
  {
    s.Tracking? ==> s.emaSq >= s.ema * s.ema
  }

  /**
   * From consistent moments and a weight in [0, 1], the variance estimate of
   * the next call is never negative.
   */
  lemma VarianceNonNegative(c: Config, s: State, x: real)
    requires Valid(s) && s.Tracking?
    requires 0.0 <= c.alpha <= 1.0
    ensures Variance(c, s.ema, s.emaSq, x) >= 0.0
  {
    SmoothIsBlend(c.alpha, s.ema, x);
    SmoothIsBlend(c.alpha, s.emaSq, x * x);
    ConvexKeepsSpread(1.0 - c.alpha, s.ema, s.emaSq, x);
  }

  /** Every update with a weight in [0, 1] keeps the moments consistent. */
  lemma EmaKeepsSpread(c: Config, s: State, x: real, root: real)
    requires NeedsRoot(c, s, x) ==> IsRoot(Variance(c, s.ema, s.emaSq, x), root)
    requires Valid(s)
    requires 0.0 <= c.alpha <= 1.0
    ensures Valid(Update(c, s, x, root).state)
  {
    if s.Tracking? {
      VarianceNonNegative(c, s, x);
    }
  }

  lemma ProductZero(y: real)
    requires y * y == 0.0
    ensures y == 0.0
  {
    if y != 0.0 {
      SquarePositive(y);
      SquareIsProduct(y);
    }
  }

  /** The algebraic core of FloorOnlyOnExactFit, over plain variables. */
  lemma NoSpreadNoGap(a: real, spread: real, d: real)
    requires 0.0 < a < 1.0 && spread >= 0.0
    requires a * spread + (a * (1.0 - a)) * (d * d) <= 0.0
    ensures d == 0.0
  {
    MulNonNegative(a, spread);
    SquareNonNegative(d);
    SquareIsProduct(d);
    var k := a * (1.0 - a);
    var q := d * d;
    MulPositive(a, 1.0 - a);
    assert k > 0.0;
    MulNonNegative(k, q);
    assert k * q == 0.0;
    ZeroQuotient(q, k);
    ProductZero(d);
  }

  /**
   * From consistent moments and a weight in (0, 1], a variance estimate that
   * is not positive means the new mean is the reading itself.
   */
  lemma ExactFit(c: Config, s: State, x: real)
    requires s.Tracking? && Valid(s)
    requires 0.0 < c.alpha <= 1.0
    requires Variance(c, s.ema, s.emaSq, x) <= 0.0
    ensures Smooth(c.alpha, s.ema, x) == x
  {
    if c.alpha < 1.0 {
      var a := 1.0 - c.alpha;
      SmoothSpread(c.alpha, s.ema, s.emaSq, x);
      NoSpreadNoGap(a, s.emaSq - s.ema * s.ema, s.ema - x);
      SmoothOfSame(c.alpha, x);
    }
  }

  /** The spread of smoothed moments, with `a = 1 - alpha` the weight kept on the history. */
  lemma SmoothSpread(alpha: real, m: real, m2: real, x: real)
    ensures var a := 1.0 - alpha;
            Smooth(alpha, m2, x * x) - Smooth(alpha, m, x) * Smooth(alpha, m, x)
            == a * (m2 - m * m) + (a * (1.0 - a)) * ((m - x) * (m - x))
  {
    SmoothIsBlend(alpha, m, x);
    SmoothIsBlend(alpha, m2, x * x);
    BlendSpread(1.0 - alpha, m, m2, x);
  }

  lemma SmoothOfSame(alpha: real, x: real)
    ensures Smooth(alpha, x, x) == x
  {
  }

  /**
   * Over exact reals the 1e-6 floor never inflates a score: from consistent
   * moments and a weight in (0, 1], the variance estimate is zero only when
   * the reading equals the new mean exactly, so a floored call scores 0
   * and, for a non-negative threshold, reports no anomaly.
   */
  lemma FloorOnlyOnExactFit(c: Config, s: State, x: real, root: real)
    requires s.Tracking? && Valid(s)
    requires 0.0 < c.alpha <= 1.0
    requires !NeedsRoot(c, s, x)
    ensures Update(c, s, x, root).result.expected == x
    ensures Update(c, s, x, root).result.distance == 0.0
    ensures c.threshold >= 0.0 ==> !Update(c, s, x, root).result.isAnomaly
  {
    ExactFit(c, s, x);
    var u := Update(c, s, x, root);
    assert Abs(x - u.result.expected) == 0.0;
    ZeroQuotient(u.result.distance, StdDev(c, s, x, root));
  }
}

=== FILE: ints.dfy ===
/** Integer helpers shared by the window-length contracts. */
module Ints {

  function Min(a: int, b: int): int
  {
    if a < b then a else b
  }

  function Max(a: int, b: int): int
  {
    if a < b then b else a
  }
}

=== FILE: pewma.dfy ===
/**
 * The probabilistic exponentially weighted moving average detector
 * (`PEWMAAnomalyDetector` in anomaly_detector.py, after Carter and Streilein,
 * "Probabilistic reasoning for streaming anomaly detection", 2012): first and
 * second moments smoothed with a weight that follows a training schedule and
 * then shrinks for improbable readings.
 */
module Pewma {
  import opened Results
  import opened Stats
  import opened Detection

  /** Construction-time parameters; the code applies no validation to any of them. */
  datatype Config = Config(alpha: real, beta: real, threshold: real, trainingSteps: int)

  /** `s1`, `s2` and `mean` are unset together before the first reading and set together after it. */
  datatype Moments = Unset | Seen(s1: real, s2: real, mean: real)

  /**
   * The detector's state. The code also stores the last standard deviation,
   * but every call overwrites it before reading it, so it is not state.
   */
  datatype State = State(steps: nat, moments: Moments)

  const Fresh: State := State(0, Unset)

  /** The moments a call starts from: the first reading initialises all three. */
  function Started(m: Moments, x: real): (r: Moments)
    ensures r.Seen?
    ensures m.Unset? ==> r == Seen(x, x * x, x)
    ensures m.Seen? ==> r == m
  {
    if m.Unset? then Seen(x, x * x, x) else m
  }

  /** The argument the code passes to `math.sqrt` on reading `x`. */
  function Radicand(s: State, x: real): real
  {
    var m := Started(s.moments, x);
    m.s2 - m.s1 * m.s1
  }

  /** Bounds on the density value `exp(-zt^2 / 2) / sqrt(2 pi)`, which never exceeds 0.3990. */
  predicate IsDensity(pt: real)
  {
    0.0 <= pt <= 0.4
  }

  /** The weights the documentation asks for, closed at both ends. */
  predicate WeightsInRange(c: Config)
  {
    0.0 <= c.alpha <= 1.0 && 0.0 <= c.beta <= 1.0
  }

  lemma DiscountedWeight(c: Config, pt: real)
    ensures WeightsInRange(c) && IsDensity(pt) ==> 0.0 <= (1.0 - c.beta * pt) * c.alpha <= 1.0
  {
    if WeightsInRange(c) && IsDensity(pt) {
      MulMono(c.beta, 1.0, pt, 0.4);
      MulNonNegative(c.beta, pt);
      MulNonNegative(1.0 - c.beta * pt, c.alpha);
      MulMono(1.0 - c.beta * pt, 1.0, c.alpha, 1.0);
    }
  }

  /**
   * `alpha_t` on the call that makes the step counter `steps`: the
   * schedule `1 - 1/steps` while training, then `alpha` discounted by the
   * reading's probability. The weight stays in [0, 1) during training, and
   * in [0, 1] afterwards when the weights are in range.
   */
  function AlphaT(c: Config, steps: nat, pt: real): (r: real)
    requires steps >= 1
    ensures steps < c.trainingSteps ==> 0.0 <= r < 1.0
    ensures steps >= c.trainingSteps && WeightsInRange(c) && IsDensity(pt) ==> 0.0 <= r <= 1.0
  {
    if steps < c.trainingSteps then
      DivMono(1.0, steps as real, steps as real);
      DivPositive(1.0, steps as real);
      1.0 - 1.0 / (steps as real)
    else
      DiscountedWeight(c, pt);
      (1.0 - c.beta * pt) * c.alpha
  }

  /** The z-score against the prior mean; 0 when the standard deviation is 0. */
  function ZScore(x: real, mean: real, root: real): (z: real)
    ensures root == 0.0 ==> z == 0.0
    ensures root != 0.0 ==> z * root == x - mean
  {
    if root == 0.0 then 0.0 else DivTimes(x - mean, root); (x - mean) / root
  }

  /**
   * Blend the reading into both moments with weight `at` on the history; the
   * mean follows `s1`. With a weight in [0, 1] the new first moment lies
   * between the prior one and the reading, and the second moment stays at
   * least the first squared.
   */
  function Absorb(at: real, m: Moments, x: real): (r: Moments)
    requires m.Seen?
    ensures r.Seen? && r.mean == r.s1
    ensures r.s1 == Blend(at, m.s1, x) && r.s2 == Blend(at, m.s2, x * x)
    ensures 0.0 <= at <= 1.0 ==>
              (m.s1 <= x ==> m.s1 <= r.s1 <= x) &&
              (x <= m.s1 ==> x <= r.s1 <= m.s1)
    ensures 0.0 <= at <= 1.0 && m.s2 >= m.s1 * m.s1 ==> r.s2 >= r.s1 * r.s1
  {
    BlendBetween(at, m.s1, x);
    ConvexKeepsSpread(at, m.s1, m.s2, x);
    var s1 := Blend(at, m.s1, x);
    Seen(s1, Blend(at, m.s2, x * x), s1)
  }

  /**
   * The part of `update_reading` after the square root: the z-score against
   * the prior mean, the blended moments, and the verdict, suppressed while
   * the step counter is below the training length. `root` is the standard
   * deviation of the prior moments.
   */
  function Score(c: Config, steps: nat, m: Moments, x: real, root: real, pt: real): (u: Updated<State>)
    requires steps >= 1 && m.Seen? && IsDensity(pt)
    ensures u.state.steps == steps
    ensures u.state.moments == Absorb(AlphaT(c, steps, pt), m, x)
    ensures u.state.moments.Seen? && u.state.moments.mean == u.state.moments.s1
    ensures u.result.expected == u.state.moments.s1
    ensures u.result.safeDist == root * c.threshold
    ensures root == 0.0 ==> u.result.distance == 0.0
    ensures root != 0.0 ==> u.result.distance * root == x - m.mean
    ensures steps < c.trainingSteps ==> !u.result.isAnomaly
    ensures steps >= c.trainingSteps ==> u.result.isAnomaly == IsAnomaly(c.threshold, u.result.distance)
  {
    var zt := ZScore(x, m.mean, root);
    var next := Absorb(AlphaT(c, steps, pt), m, x);
    var verdict := if steps >= c.trainingSteps then IsAnomaly(c.threshold, zt) else false;
    Updated(State(steps, next), DetectionResult(next.s1, root * c.threshold, zt, verdict))
  }

  /**
   * `update_reading`. `root` is the value `math.sqrt` returns for the
   * radicand and `pt` the density value the code computes from the z-score.
   * A negative radicand makes `math.sqrt` raise.
   */
  function Update(c: Config, s: State, x: real, root: real, pt: real): (res: Result<Updated<State>>)
    requires Radicand(s, x) >= 0.0 ==> IsRoot(Radicand(s, x), root)
    requires IsDensity(pt)
    ensures res.Err? <==> Radicand(s, x) < 0.0
    ensures res.Err? ==> res.fault == MathDomainError
    ensures res.Ok? ==> res.value == Score(c, s.steps + 1, Started(s.moments, x), x, root, pt)
  {
    if Radicand(s, x) < 0.0 then
      Err(MathDomainError)
    else
      Ok(Score(c, s.steps + 1, Started(s.moments, x), x, root, pt))
  }

  /**
   * What a successful `update_reading` yields: the step counter grows by
   * one; the started moments are blended with `alpha_t` for the new counter,
   * `mean` follows `s1` and is the expected value; `safe_dist` uses the
   * standard deviation of the prior moments; the z-score is measured against
   * the prior mean; and the verdict is suppressed while training.
   */
  lemma UpdateOk(c: Config, s: State, x: real, root: real, pt: real)
    requires Radicand(s, x) >= 0.0 && IsRoot(Radicand(s, x), root)
    requires IsDensity(pt)
    ensures var u := Update(c, s, x, root, pt).value;
            u.state.steps == s.steps + 1
    ensures var u := Update(c, s, x, root, pt).value;
            u.state.moments == Absorb(AlphaT(c, s.steps + 1, pt), Started(s.moments, x), x)
    ensures var u := Update(c, s, x, root, pt).value;
            var m := u.state.moments;
            m.Seen? && m.mean == m.s1 && u.result.expected == m.s1
    ensures var u := Update(c, s, x, root, pt).value;
            var r := u.result;
            r.safeDist == root * c.threshold &&
            (root == 0.0 ==> r.distance == 0.0) &&
            (root != 0.0 ==> r.distance * root == x - Started(s.moments, x).mean)
    ensures var u := Update(c, s, x, root, pt).value;
            u.state.steps < c.trainingSteps ==> !u.result.isAnomaly
    ensures var u := Update(c, s, x, root, pt).value;
            u.state.steps >= c.trainingSteps ==> u.result.isAnomaly == IsAnomaly(c.threshold, u.result.distance)
  {
  }

  /**
   * On a fresh pair of moments (the first call, whatever the step counter
   * says) the radicand is 0, so the standard deviation and the z-score are 0,
   * the moments become the reading and its square, and the expected value is
   * the reading itself.
   */
  lemma FirstCall(c: Config, steps: nat, x: real, root: real, pt: real)
    requires IsRoot(0.0, root) && IsDensity(pt)
    ensures Radicand(State(steps, Unset), x) == 0.0
    ensures var res := Update(c, State(steps, Unset), x, root, pt);
            res.Ok? &&
            res.value.state.moments == Seen(x, x * x, x) &&
            res.value.result.expected == x &&
            res.value.result.distance == 0.0 &&
            res.value.result.safeDist == 0.0 &&
            (c.threshold >= 0.0 ==> !res.value.result.isAnomaly)
  {
    RootZeroIff(0.0, root);
  }

  /**
   * The new first moment, which is also the expected value, lies between the
   * prior one and the reading: always while training, and afterwards when the
   * weights are in range.
   */
  lemma MeanMovesTowardReading(c: Config, s: State, x: real, root: real, pt: real)
    requires Radicand(s, x) >= 0.0 ==> IsRoot(Radicand(s, x), root)
    requires IsDensity(pt)
    requires s.steps + 1 < c.trainingSteps || WeightsInRange(c)
    requires Radicand(s, x) >= 0.0
    ensures var prior := Started(s.moments, x).s1;
            var r := Update(c, s, x, root, pt).value;
            r.result.expected == r.state.moments.s1 &&
            (prior <= x ==> prior <= r.state.moments.s1 <= x) &&
            (x <= prior ==> x <= r.state.moments.s1 <= prior)
  {
    var at := AlphaT(c, s.steps + 1, pt);
    assert 0.0 <= at <= 1.0;
  }

  /** The moments are consistent: `mean` mirrors `s1` and `s2` is at least `s1` squared. */
  predicate Valid(s: State)
  {
    s.moments.Seen? ==> s.moments.mean == s.moments.s1 && s.moments.s2 >= s.moments.s1 * s.moments.s1
  }

  /** From consistent moments the square root never sees a negative argument. */
  lemma ValidNeverFaults(s: State, x: real)
    requires Valid(s)
    ensures Radicand(s, x) >= 0.0
  {
  }

  /**
   * With weights in range, every update from consistent moments succeeds
   * and leaves consistent moments behind, so a detector started fresh never
   * raises.
   */
  lemma PewmaKeepsValid(c: Config, s: State, x: real, root: real, pt: real)
    requires Radicand(s, x) >= 0.0 ==> IsRoot(Radicand(s, x), root)
    requires IsDensity(pt)
    requires Valid(s) && WeightsInRange(c)
    ensures Update(c, s, x, root, pt).Ok?
    ensures Valid(Update(c, s, x, root, pt).value.state)
  {
    ValidNeverFaults(s, x);
    var at := AlphaT(c, s.steps + 1, pt);
    assert 0.0 <= at <= 1.0;
  }

  /** A freshly constructed detector is consistent, so by PewmaKeepsValid none of its updates raises. */
  lemma FreshIsValid()
    ensures Valid(Fresh)
  {
  }

  /** The training schedule turns a mean of `k` readings into the mean of `k + 1`. */
  lemma RunningMeanStep(k: real, sum: real, x: real)
    requires k >= 1.0
    ensures Blend(1.0 - 1.0 / (k + 1.0), sum / k, x) == (sum + x) / (k + 1.0)
  {
    var n := k + 1.0;
    assert 1.0 - 1.0 / n == k / n;
    assert (k / n) * (sum / k) == sum / n;
    assert (1.0 - (1.0 - 1.0 / n)) * x == x / n;
  }

  /**
   * During training the first moment is the plain arithmetic mean of every
   * reading seen so far: `alpha_t = 1 - 1/steps` is the running-mean weight.
   */
  lemma TrainingMean(c: Config, s: State, xs: seq<real>, x: real, root: real, pt: real)
    requires Radicand(s, x) >= 0.0 ==> IsRoot(Radicand(s, x), root)
    requires IsDensity(pt)
    requires s.steps == |xs|
    requires |xs| == 0 ==> s.moments.Unset?
    requires |xs| > 0 ==> s.moments.Seen? && s.moments.s1 == Mean(xs)
    requires |xs| > 0 ==> s.steps + 1 < c.trainingSteps
    requires Radicand(s, x) >= 0.0
    ensures Update(c, s, x, root, pt).value.state.moments.s1 == Mean(xs + [x])
  {
    SumAppend(xs, x);
    if |xs| > 0 {
      RunningMeanStep(|xs| as real, Sum(xs), x);
    } else {
      assert xs + [x] == [x];
      assert Sum([x]) == Sum([]) + x;
    }
  }
}

=== FILE: results.dfy ===
/**
 * Failure-carrying values shared by the model. The Python code signals its
 * failures by raising; each raise site that the model reaches becomes an
 * `Err` carrying the kind of exception that would have been raised.
 */
module Results {

  datatype Option<+T> = None | Some(value: T)

  /** The exceptions the modelled code can raise on some input. */
  datatype Fault =
    | ZeroDivisionError   // `/` or `%` by zero
    | MathDomainError     // `math.sqrt` of a negative number

  datatype Result<+T> = Ok(value: T) | Err(fault: Fault)
}

=== FILE: simulation.dfy ===
/**
 * One call of `SimulationManager.step` (simulation_manager.py): produce `n`
 * points, each the generator's value plus the injected spike, score every
 * `every_n_sample`-th of them with the detector, stamp the others with the
 * last detection, and keep only the newest `window_max` points.
 *
 * The generator's values and the injector's outputs for the `n` points are
 * inputs (`gen`, `adds`), `n` is their length, and the detector is any
 * function from its state and a reading to its next state and result.
 */
module Simulation {
  import opened Results
  import opened Detection
  import opened Ints

  /** A plotted point: time offset in hours, value, whether a spike was injected, and the detection shown for it. */
  datatype Point = Point(t: real, val: real, hasAnomaly: bool, result: Option<DetectionResult>)

  /** Construction-time parameters of the manager. */
  datatype SimConfig = SimConfig(windowMax: int, delta: real, everyN: int)

  /** What the injector returned for one point. */
  datatype Injection = Injection(amp: real, flag: bool)

  /**
   * The manager's state: the retained points, the step counter, the last
   * detection (None before the first), the clock, and the detector's state.
   */
  datatype Sim<D> = Sim(window: seq<Point>, steps: nat, last: Option<DetectionResult>, t: real, detector: D)

  /** The manager after `step`, and the list `step` returns. */
  datatype Stepped<D> = Stepped(sim: Sim<D>, shown: seq<Point>)

  function Fresh<D>(detector: D): Sim<D>
  {
    Sim([], 0, None, 0.0, detector)
  }

  /** Whether the point produced at step counter `steps` is scored. */
  predicate Sampled(c: SimConfig, steps: nat)
    requires c.everyN != 0
  {
    steps % c.everyN == 0
  }

  /**
   * One pass of the loop body: the reading, the detector call when this
   * step is sampled, the point, and the advanced clock and counter. The
   * retained window is not touched inside the loop.
   */
  function Tick<D>(c: SimConfig, s: Sim<D>, v: real, inj: Injection, detect: (D, real) -> Updated<D>): (r: (Sim<D>, Point))
    requires c.everyN != 0
    ensures r.0.steps == s.steps + 1 && r.0.t == s.t + c.delta && r.0.window == s.window
    ensures r.1 == Point(s.t, v + inj.amp, inj.flag, r.0.last)
    ensures Sampled(c, s.steps) ==>
              r.0.last == Some(detect(s.detector, v + inj.amp).result) &&
              r.0.detector == detect(s.detector, v + inj.amp).state
    ensures !Sampled(c, s.steps) ==> r.0.last == s.last && r.0.detector == s.detector
  {
    var val := v + inj.amp;
    var u := detect(s.detector, val);
    var last := if Sampled(c, s.steps) then Some(u.result) else s.last;
    var d := if Sampled(c, s.steps) then u.state else s.detector;
    (s.(steps := s.steps + 1, t := s.t + c.delta, last := last, detector := d), Point(s.t, val, inj.flag, last))
  }

  /** The loop of `step` as a fold over the inputs: the state after it and the points it made. */
  function Run<D>(c: SimConfig, s: Sim<D>, gen: seq<real>, adds: seq<Injection>, detect: (D, real) -> Updated<D>): (r: (Sim<D>, seq<Point>))
    requires c.everyN != 0 && |gen| == |adds|
    ensures |r.1| == |gen|
  {
    if |gen| == 0 then
      (s, [])
    else
      var k := |gen| - 1;
      var before := Run(c, s, gen[..k], adds[..k], detect);
      var after := Tick(c, before.0, gen[k], adds[k], detect);
      (after.0, before.1 + [after.1])
  }

  /**
   * The trimming after the loop: the newest `windowMax` points, in order,
   * and none when `windowMax` is not positive (the slice start then lies at
   * or past the end).
   */
  function Trim(all: seq<Point>, windowMax: int): (r: seq<Point>)
    ensures |r| == Min(|all|, Max(windowMax, 0))
    ensures r == all[|all| - |r|..]
  {
    if |all| > windowMax then
      if windowMax <= 0 then [] else all[|all| - windowMax..]
    else
      all
  }

  /**
   * `step(n)` with `n == |gen|`. A zero sampling period makes the modulo
   * divide by zero on the first pass of the loop; with no points to make
   * the loop never runs.
   */
  method Step<D>(c: SimConfig, s: Sim<D>, gen: seq<real>, adds: seq<Injection>, detect: (D, real) -> Updated<D>)
      returns (res: Result<Stepped<D>>)
    requires |gen| == |adds|
    ensures res.Err? <==> |gen| > 0 && c.everyN == 0
    ensures res.Err? ==> res.fault == ZeroDivisionError
    ensures res.Ok? ==> res.value.sim.steps == s.steps + |gen|
    ensures res.Ok? ==> res.value.sim.t == s.t + (|gen| as real) * c.delta
    ensures res.Ok? ==> res.value.shown == res.value.sim.window
    ensures res.Ok? ==> |res.value.sim.window| <= Max(c.windowMax, 0)
    ensures res.Ok? && c.everyN != 0 ==>
              var r := Run(c, s, gen, adds, detect);
              res.value.sim == r.0.(window := Trim(s.window + r.1, c.windowMax))
    ensures res.Ok? && c.everyN == 0 ==> res.value.sim == s.(window := Trim(s.window, c.windowMax))
  {
    if c.everyN == 0 {
      if |gen| > 0 {
        return Err(ZeroDivisionError);
      }
      var kept := Trim(s.window, c.windowMax);
      return Ok(Stepped(s.(window := kept), kept));
    }
    var cur := s;
    var points: seq<Point> := [];
    var i := 0;
    while i < |gen|
      invariant 0 <= i <= |gen|
      invariant (cur, points) == Run(c, s, gen[..i], adds[..i], detect)
    {
      RunPrefix(c, s, gen, adds, detect, i);
      var next := Tick(c, cur, gen[i], adds[i], detect);
      points := points + [next.1];
      cur := next.0;
      i := i + 1;
    }
    assert gen[..|gen|] == gen;
    assert adds[..|adds|] == adds;
    RunAdvances(c, s, gen, adds, detect);
    var window := s.window + points;
    if |window| > c.windowMax {
      window := if c.windowMax <= 0 then [] else window[|window| - c.windowMax..];
    }
    assert window == Trim(s.window + points, c.windowMax);
    return Ok(Stepped(cur.(window := window), window));
  }

  /** Unfolding the fold by one more input. */
  lemma RunPrefix<D>(c: SimConfig, s: Sim<D>, gen: seq<real>, adds: seq<Injection>, detect: (D, real) -> Updated<D>, i: nat)
    requires c.everyN != 0 && |gen| == |adds| && i < |gen|
    ensures var before := Run(c, s, gen[..i], adds[..i], detect);
            var after := Tick(c, before.0, gen[i], adds[i], detect);
            Run(c, s, gen[..i + 1], adds[..i + 1], detect) == (after.0, before.1 + [after.1])
  {
    assert gen[..i + 1][..i] == gen[..i];
    assert adds[..i + 1][..i] == adds[..i];
  }

  /**
   * The loop makes one point per input and advances the counter by one and
   * the clock by `delta` per point; the retained window is left alone.
   */
  lemma {:induction false} RunAdvances<D>(c: SimConfig, s: Sim<D>, gen: seq<real>, adds: seq<Injection>, detect: (D, real) -> Updated<D>)
    requires c.everyN != 0 && |gen| == |adds|
    ensures var r := Run(c, s, gen, adds, detect);
            |r.1| == |gen| &&
            r.0.steps == s.steps + |gen| &&
            r.0.t == s.t + (|gen| as real) * c.delta &&
            r.0.window == s.window
  {
    if |gen| > 0 {
      var k := |gen| - 1;
      RunAdvances(c, s, gen[..k], adds[..k], detect);
    }
  }

  /**
   * The `i`-th point of a call is stamped with the clock before it, valued
   * at the generator's value plus the injected amplitude, and flagged as the
   * injector said; the step counter then reads `steps + i`.
   */
  lemma {:induction false} RunPoint<D>(c: SimConfig, s: Sim<D>, gen: seq<real>, adds: seq<Injection>, detect: (D, real) -> Updated<D>, i: nat)
    requires c.everyN != 0 && |gen| == |adds| && i < |gen|
    ensures Run(c, s, gen[..i], adds[..i], detect).0.steps == s.steps + i
    ensures var p := Run(c, s, gen, adds, detect).1[i];
            p.t == s.t + (i as real) * c.delta &&
            p.val == gen[i] + adds[i].amp &&
            p.hasAnomaly == adds[i].flag
  {
    var pre := Run(c, s, gen[..i], adds[..i], detect).0;
    RunAdvances(c, s, gen[..i], adds[..i], detect);
    PointIsTick(c, s, gen, adds, detect, i);
    var p := Tick(c, pre, gen[i], adds[i], detect).1;
    assert Run(c, s, gen, adds, detect).1[i] == p;
    assert p.t == pre.t == s.t + (i as real) * c.delta;
  }

  /**
   * The detection the `i`-th point carries. When its step counter is a
   * multiple of the sampling period it is the detector's fresh result for
   * the point's value, computed from the detector state the earlier points
   * left; otherwise it repeats the previous point's detection (the manager's
   * last one for the first point) and the detector is not called.
   */
  lemma {:induction false} RunDetection<D>(c: SimConfig, s: Sim<D>, gen: seq<real>, adds: seq<Injection>, detect: (D, real) -> Updated<D>, i: nat)
    requires c.everyN != 0 && |gen| == |adds| && i < |gen|
    ensures var p := Run(c, s, gen, adds, detect).1[i];
            var before := Run(c, s, gen[..i], adds[..i], detect).0;
            var after := Run(c, s, gen[..i + 1], adds[..i + 1], detect).0;
            p.result == after.last &&
            (Sampled(c, s.steps + i) ==>
               p.result == Some(detect(before.detector, p.val).result) &&
               after.detector == detect(before.detector, p.val).state) &&
            (!Sampled(c, s.steps + i) ==>
               p.result == before.last &&
               after.detector == before.detector)
  {
    RunPoint(c, s, gen, adds, detect, i);
    RunPrefix(c, s, gen, adds, detect, i);
    PointIsTick(c, s, gen, adds, detect, i);
  }

  /** The `i`-th point is the one the loop body makes from the state the earlier points left. */
  lemma {:induction false} PointIsTick<D>(c: SimConfig, s: Sim<D>, gen: seq<real>, adds: seq<Injection>, detect: (D, real) -> Updated<D>, i: nat)
    requires c.everyN != 0 && |gen| == |adds| && i < |gen|
    ensures Run(c, s, gen, adds, detect).1[i] == Tick(c, Run(c, s, gen[..i], adds[..i], detect).0, gen[i], adds[i], detect).1
  {
    var k := |gen| - 1;
    if i < k {
      PointIsTick(c, s, gen[..k], adds[..k], detect, i);
      assert gen[..k][..i] == gen[..i];
      assert adds[..k][..i] == adds[..i];
    }
  }

  /**
   * No point carries a missing detection once the first point of the call
   * is sampled or a detection already exists; in particular a fresh manager
   * (step counter 0) never shows a point without a result.
   */
  lemma {:induction false} EveryPointHasResult<D>(c: SimConfig, s: Sim<D>, gen: seq<real>, adds: seq<Injection>, detect: (D, real) -> Updated<D>, i: nat)
    requires c.everyN != 0 && |gen| == |adds| && i < |gen|
    requires s.last.Some? || Sampled(c, s.steps)
    ensures Run(c, s, gen, adds, detect).1[i].result.Some?
  {
    RunPoint(c, s, gen, adds, detect, i);
    RunDetection(c, s, gen, adds, detect, i);
    if i > 0 && !Sampled(c, s.steps + i) {
      EveryPointHasResult(c, s, gen, adds, detect, i - 1);
      RunDetection(c, s, gen, adds, detect, i - 1);
      assert gen[..i - 1 + 1] == gen[..i];
      assert adds[..i - 1 + 1] == adds[..i];
    }
  }

  /** A fresh manager's counter is 0, so its first point is sampled and every point it shows carries a result. */
  lemma FreshShowsResults<D>(c: SimConfig, detector: D, gen: seq<real>, adds: seq<Injection>, detect: (D, real) -> Updated<D>, i: nat)
    requires c.everyN != 0 && |gen| == |adds| && i < |gen|
    ensures Run(c, Fresh(detector), gen, adds, detect).1[i].result.Some?
  {
    EveryPointHasResult(c, Fresh(detector), gen, adds, detect, i);
  }

  /**
   * Every retained point carries a detection, and the next point will too:
   * either a detection already exists or the next step is sampled.
   */
  predicate AllShown<D>(c: SimConfig, s: Sim<D>)
    requires c.everyN != 0
  {
    (s.last.Some? || Sampled(c, s.steps)) && forall p | p in s.window :: p.result.Some?
  }

  /** A fresh manager shows every point with a detection. */
  lemma FreshAllShown<D>(c: SimConfig, detector: D)
    requires c.everyN != 0
    ensures AllShown(c, Fresh(detector))
  {
  }

  /**
   * `step` keeps AllShown: if every retained point has a detection before a
   * call, then every point of the window it stores and returns has one
   * after it, and so does the next call's first point. With FreshAllShown,
   * no window a manager ever returns holds a point without a result.
   */
  lemma {:induction false} StepKeepsAllShown<D>(c: SimConfig, s: Sim<D>, gen: seq<real>, adds: seq<Injection>, detect: (D, real) -> Updated<D>)
    requires c.everyN != 0 && |gen| == |adds|
    requires AllShown(c, s)
    ensures var r := Run(c, s, gen, adds, detect);
            AllShown(c, r.0.(window := Trim(s.window + r.1, c.windowMax)))
  {
    var r := Run(c, s, gen, adds, detect);
    NewPointsShown(c, s, gen, adds, detect);
    LastAfterRun(c, s, gen, adds, detect);
    TrimKeepsShown(s.window, r.1, c.windowMax);
  }

  /** Every point a call makes from an AllShown state carries a detection. */
  lemma NewPointsShown<D>(c: SimConfig, s: Sim<D>, gen: seq<real>, adds: seq<Injection>, detect: (D, real) -> Updated<D>)
    requires c.everyN != 0 && |gen| == |adds|
    requires s.last.Some? || Sampled(c, s.steps)
    ensures forall p | p in Run(c, s, gen, adds, detect).1 :: p.result.Some?
  {
    var pts := Run(c, s, gen, adds, detect).1;
    forall p | p in pts
      ensures p.result.Some?
    {
      var i :| 0 <= i < |pts| && pts[i] == p;
      EveryPointHasResult(c, s, gen, adds, detect, i);
    }
  }

  /** After a call from an AllShown state a detection exists or the next step is sampled. */
  lemma LastAfterRun<D>(c: SimConfig, s: Sim<D>, gen: seq<real>, adds: seq<Injection>, detect: (D, real) -> Updated<D>)
    requires c.everyN != 0 && |gen| == |adds|
    requires s.last.Some? || Sampled(c, s.steps)
    ensures var r := Run(c, s, gen, adds, detect).0;
            r.last.Some? || Sampled(c, r.steps)
  {
    if |gen| > 0 {
      var k := |gen| - 1;
      EveryPointHasResult(c, s, gen, adds, detect, k);
      RunDetection(c, s, gen, adds, detect, k);
      assert gen[..k + 1] == gen;
      assert adds[..k + 1] == adds;
    }
  }

  /** Trimming keeps only points of the old window and the new points. */
  lemma TrimKeepsShown(prior: seq<Point>, pts: seq<Point>, windowMax: int)
    requires forall p | p in prior :: p.result.Some?
    requires forall p | p in pts :: p.result.Some?
    ensures forall p | p in Trim(prior + pts, windowMax) :: p.result.Some?
  {
    var all := prior + pts;
    var kept := Trim(all, windowMax);
    forall p | p in kept
      ensures p.result.Some?
    {
      var j :| 0 <= j < |kept| && kept[j] == p;
      assert all[|all| - |kept| + j] == p;
      assert p in all;
    }
  }
}

=== FILE: sliding_window.dfy ===
/**
 * The sliding-window z-score detector (`MovingAverageAnomalyDetector` in
 * anomaly_detector.py): a bounded FIFO of recent readings, their population
 * mean and standard deviation, and the z-score of the newest reading.
 */
module SlidingWindow {
  import opened Results
  import opened Stats
  import opened Detection
  import opened Ints

  /** Construction-time parameters; the code applies no validation to either. */
  datatype Config = Config(windowSize: int, threshold: real)

  /**
   * Append the reading, then drop the oldest one if the window now exceeds
   * the size. Exactly one reading is dropped per call.
   */
  function Slide(w: seq<real>, x: real, size: int): (w': seq<real>)
    ensures |w| < size ==> w' == w + [x]
    ensures |w| >= size ==> w' == (w + [x])[1..]
    ensures |w'| > 0 ==> w'[|w'| - 1] == x
  {
    var a := w + [x];
    if |a| > size then a[1..] else a
  }

  /** The window of a fresh detector after it has been fed `xs`, oldest first. */
  function Fill(size: int, xs: seq<real>): (w: seq<real>)
    ensures size >= 1 ==> |w| == Min(|xs|, size)
    ensures size >= 1 && |xs| > 0 ==> w[|w| - 1] == xs[|xs| - 1]
  {
    if |xs| == 0 then [] else Slide(Fill(size, xs[..|xs| - 1]), xs[|xs| - 1], size)
  }

  /**
   * After any sequence of readings the window holds exactly the last
   * min(k, window_size) of them, in arrival order, newest last.
   */
  lemma {:induction false} FillKeepsNewest(size: int, xs: seq<real>)
    requires size >= 1
    ensures Fill(size, xs) == xs[|xs| - Min(|xs|, size)..]
  {
    if |xs| > 0 {
      var ys := xs[..|xs| - 1];
      var x := xs[|xs| - 1];
      FillKeepsNewest(size, ys);
      assert xs[..|xs| - 1] == ys;
      assert ys + [x] == xs;
      SlideNewest(ys, x, size);
      calc {
        Fill(size, xs);
        Slide(Fill(size, ys), x, size);
        Slide(ys[|ys| - Min(|ys|, size)..], x, size);
        (ys + [x])[|ys| + 1 - Min(|ys| + 1, size)..];
      }
    }
  }

  /** One step of FillKeepsNewest: sliding the newest readings keeps the newest readings. */
  lemma SlideNewest(ys: seq<real>, x: real, size: int)
    requires size >= 1
    ensures Slide(ys[|ys| - Min(|ys|, size)..], x, size) == (ys + [x])[|ys| + 1 - Min(|ys| + 1, size)..]
  {
    if |ys| >= size {
      SlideFull(ys, x, size);
    } else {
      assert ys[0..] == ys;
      assert (ys + [x])[0..] == ys + [x];
    }
  }

  /** Sliding a full window over the newest readings keeps the newest readings. */
  lemma SlideFull(ys: seq<real>, x: real, size: int)
    requires 1 <= size <= |ys|
    ensures Slide(ys[|ys| - size..], x, size) == (ys + [x])[|ys| + 1 - size..]
  {
    var w := ys[|ys| - size..];
    var tail := (ys + [x])[|ys| + 1 - size..];
    assert Slide(w, x, size) == (w + [x])[1..];
    assert |(w + [x])[1..]| == |tail|;
    forall i | 0 <= i < size
      ensures (w + [x])[1..][i] == tail[i]
    {
    }
  }

  /**
   * `update_reading`. `root` is the value `math.sqrt` returns for the window's
   * population variance. An empty window after trimming (window_size < 1 on a
   * fresh detector) makes `arr_mean` divide by zero.
   */
  function Update(c: Config, w: seq<real>, x: real, root: real): (res: Result<Updated<seq<real>>>)
    requires |Slide(w, x, c.windowSize)| > 0 ==> IsRoot(PopVariance(Slide(w, x, c.windowSize)), root)
    ensures res.Err? <==> |w| == 0 && c.windowSize < 1
    ensures res.Err? ==> res.fault == ZeroDivisionError
    ensures res.Ok? ==> res.value.state == Slide(w, x, c.windowSize)
    ensures res.Ok? ==> res.value.result.expected == Mean(res.value.state)
    ensures res.Ok? && Constant(res.value.state) ==>
              res.value.result == DetectionResult(x, 0.0, 0.0, false)
    ensures res.Ok? && !Constant(res.value.state) ==>
              var r := res.value.result;
              root > 0.0 && r.distance * root == x - r.expected && r.safeDist == root * c.threshold &&
              r.isAnomaly == IsAnomaly(c.threshold, r.distance)
    ensures res.Ok? && c.threshold >= 0.0 ==>
              var r := res.value.result;
              r.safeDist >= 0.0 && r.isAnomaly == IsAnomaly(c.threshold, r.distance)
  {
    var w' := Slide(w, x, c.windowSize);
    if |w'| == 0 then
      Err(ZeroDivisionError)
    else
      var mean := Mean(w');
      VarianceZeroIffConstant(w');
      RootZeroIff(PopVariance(w'), root);
      if root == 0.0 then
        MeanOfConstant(w');
        Ok(Updated(w', DetectionResult(mean, 0.0, 0.0, false)))
      else
        var z := (x - mean) / root;
        DivTimes(x - mean, root);
        ProductSign(root, c.threshold);
        Ok(Updated(w', DetectionResult(mean, root * c.threshold, z, Abs(z) > c.threshold)))
  }

  /**
   * Algebra behind ZScoreBound: a deviation whose share of the squared
   * deviations is bounded as in NewestDeviationBound gives a z-score whose
   * square is at most n - 1.
   */
  lemma ZScoreStep(n: real, d: real, sq: real, root: real, z: real)
    requires n >= 1.0 && root > 0.0
    requires ShareBound(d, n, sq)
    requires Square(root) * n == sq
    requires z * root == d
    ensures Square(z) <= n - 1.0
  {
    SquareIsProduct(root);
    SquareIsProduct(z);
    var r2 := root * root;
    assert n * (d * d) <= (n - 1.0) * sq;
    assert d * d == Square(z) * r2;
    assert n * (d * d) == n * (Square(z) * r2);
    assert (n - 1.0) * sq == (n - 1.0) * (r2 * n);
    LeSubst(n * (d * d), (n - 1.0) * sq, n * (Square(z) * r2), (n - 1.0) * (r2 * n));
    CancelScale(n, r2, Square(z), n - 1.0);
  }

  lemma CancelScale(n: real, r2: real, p: real, m: real)
    requires n > 0.0 && r2 > 0.0
    requires n * (p * r2) <= m * (r2 * n)
    ensures p <= m
  {
    var k := n * r2;
    MulPositive(n, r2);
    assert k * p <= k * m;
    CancelLeft(k, p, m);
  }

  /**
   * The z-score of the newest reading can never exceed sqrt(n - 1) in
   * magnitude, where n is the number of readings in the window: the newest
   * reading contributes to the mean it is compared against.
   */
  lemma ZScoreBound(c: Config, w: seq<real>, x: real, root: real)
    requires |Slide(w, x, c.windowSize)| > 0 ==> IsRoot(PopVariance(Slide(w, x, c.windowSize)), root)
    requires Update(c, w, x, root).Ok?
    ensures var u := Update(c, w, x, root).value;
            Square(u.result.distance) <= (|u.state| as real) - 1.0
  {
    var u := Update(c, w, x, root).value;
    var s := u.state;
    var n := |s| as real;
    if Constant(s) {
      SquareIsProduct(0.0);
    } else {
      NewestDeviationBound(s);
      assert s[|s| - 1] == x;
      var sq := SqDev(s, Mean(s));
      assert Square(root) == sq / n;
      DivTimes(sq, n);
      ZScoreStep(n, x - Mean(s), sq, root, u.result.distance);
    }
  }

  /** A score whose square is within t * t lies in the band [-t, t]. */
  lemma SquareWithin(z: real, t: real)
    requires t >= 0.0 && Square(z) <= t * t
    ensures -t <= z <= t
  {
    SquareIsProduct(z);
    if z > t {
      MulStrict(t, z);
    } else if z < -t {
      MulStrict(t, -z);
    }
  }

  /**
   * A consequence of ZScoreBound: a window of at most ten readings cannot
   * reach a z-score beyond 3, so with a threshold of 3 or more such a
   * detector never reports an anomaly.
   */
  lemma SmallWindowNeverFlags(c: Config, w: seq<real>, x: real, root: real)
    requires |Slide(w, x, c.windowSize)| > 0 ==> IsRoot(PopVariance(Slide(w, x, c.windowSize)), root)
    requires Update(c, w, x, root).Ok?
    requires |Update(c, w, x, root).value.state| <= 10 && c.threshold >= 3.0
    ensures !Update(c, w, x, root).value.result.isAnomaly
  {
    var u := Update(c, w, x, root).value;
    ZScoreBound(c, w, x, root);
    assert (|u.state| as real) - 1.0 <= 9.0;
    SquareWithin(u.result.distance, 3.0);
  }
}

=== FILE: spike_adder.dfy ===
/**
 * The randomized spike injector (`RandomizedSpikeAnomalyAdder` in
 * anomaly_generator.py): an idle / applying state machine that waits a random
 * gap, then adds a triangle-shaped spike of random duration and signed
 * amplitude. The three random values drawn when a spike starts are a
 * parameter of the step.
 */
module SpikeAdder {
  import opened Results
  import opened Stats
  import opened Detection

  /**
   * The injector's state: its clock, whether a spike is in progress, when the
   * last spike started or ended, the gap to wait before the next one, and the
   * current spike's duration and signed peak amplitude.
   */
  datatype Adder = Adder(
    t: real,
    applying: bool,
    lastTime: real,
    nextGap: real,
    duration: real,
    amp: real)

  /** The random values drawn when a spike starts: the following gap, the duration and the signed peak. */
  datatype Draw = Draw(gap: real, duration: real, amp: real)

  /** The adder after one step, the amplitude it adds and whether the reading is anomalous. */
  datatype Advanced = Advanced(adder: Adder, amp: real, flag: bool)

  /** A freshly constructed adder, given the gap drawn by the constructor. */
  function Initial(gap: real): (a: Adder)
    ensures !a.applying && a.t == 0.0 && a.lastTime == 0.0 && a.nextGap == gap
  {
    Adder(0.0, false, 0.0, gap, 0.0, 0.0)
  }

  /**
   * `_get_current_spike_amp`: a triangle rising linearly from 0 to the peak
   * at half the duration and falling back to 0 at the full duration. Both
   * branches of the code agree with the closed form `amp * (1 - |e - d/2| / (d/2))`.
   */
  function SpikeAmp(elapsed: real, duration: real, amp: real): (r: real)
    requires duration != 0.0
    ensures r == amp * (1.0 - Abs(elapsed - 0.5 * duration) / (0.5 * duration))
  {
    var half := 0.5 * duration;
    if elapsed <= half then
      TriangleRising(elapsed, half);
      amp * (elapsed / half)
    else
      TriangleFalling(elapsed, half);
      amp * ((duration - elapsed) / half)
  }

  lemma TriangleRising(e: real, h: real)
    requires h != 0.0 && e <= h
    ensures e / h == 1.0 - Abs(e - h) / h
  {
    assert Abs(e - h) == h - e;
    DivSub(h, e, h);
    DivSelf(h);
  }

  lemma TriangleFalling(e: real, h: real)
    requires h != 0.0 && e > h
    ensures (2.0 * h - e) / h == 1.0 - Abs(e - h) / h
  {
    assert Abs(e - h) == e - h;
    DivSub(2.0 * h, e, h);
    DivScale(2.0, h);
    DivSub(e, h, h);
    DivSelf(h);
  }

  /**
   * The triangle's landmarks: 0 at the start and the end, the signed peak
   * at half the duration, and mirror symmetry about the midpoint.
   */
  lemma SpikeAmpShape(elapsed: real, duration: real, amp: real)
    requires duration > 0.0
    ensures SpikeAmp(0.0, duration, amp) == 0.0
    ensures SpikeAmp(0.5 * duration, duration, amp) == amp
    ensures SpikeAmp(duration, duration, amp) == 0.0
    ensures SpikeAmp(elapsed, duration, amp) == SpikeAmp(duration - elapsed, duration, amp)
  {
    var half := 0.5 * duration;
    assert Abs(duration - elapsed - half) == Abs(elapsed - half);
    DivSelf(half);
  }

  /** Within the spike the amplitude never exceeds the peak in magnitude. */
  lemma SpikeAmpBounded(elapsed: real, duration: real, amp: real)
    requires 0.0 <= elapsed <= duration && duration > 0.0
    ensures Abs(SpikeAmp(elapsed, duration, amp)) <= Abs(amp)
  {
    var half := 0.5 * duration;
    var f := 1.0 - Abs(elapsed - half) / half;
    assert Abs(elapsed - half) <= half;
    DivMono(Abs(elapsed - half), half, half);
    DivSelf(half);
    DivNonNegative(Abs(elapsed - half), half);
    ScaleWithin(amp, f);
  }

  /** Scaling by a factor in [0, 1] never increases a magnitude. */
  lemma ScaleWithin(amp: real, f: real)
    requires 0.0 <= f <= 1.0
    ensures Abs(amp * f) <= Abs(amp)
  {
    if amp >= 0.0 {
      MulMono(f, 1.0, amp, amp);
      MulNonNegative(amp, f);
    } else {
      MulMono(f, 1.0, -amp, -amp);
      MulNonNegative(-amp, f);
    }
  }

  /**
   * `add_anomaly`. Every call advances the clock by `delta`. While a spike is
   * in progress the call reports its current amplitude, until the duration
   * has elapsed, when the spike ends silently. While idle, once the gap has
   * elapsed a new spike starts, also silently, adopting the three drawn
   * values. A spike of duration 0 whose elapsed time is negative makes the
   * amplitude computation divide by zero.
   */
  function AddAnomaly(a: Adder, delta: real, draw: Draw): (res: Result<Advanced>)
    ensures var e := a.t + delta - a.lastTime;
            res.Err? <==> a.applying && e < a.duration && a.duration == 0.0
    ensures res.Err? ==> res.fault == ZeroDivisionError
    ensures res.Ok? ==> res.value.adder.t == a.t + delta
    ensures var e := a.t + delta - a.lastTime;
            res.Ok? ==> (res.value.flag <==> a.applying && e < a.duration)
    ensures res.Ok? && !res.value.flag ==> res.value.amp == 0.0
    ensures res.Ok? && res.value.flag ==>
              res.value.adder == a.(t := a.t + delta) &&
              res.value.amp == SpikeAmp(a.t + delta - a.lastTime, a.duration, a.amp)
    ensures var t := a.t + delta;
            a.applying && t - a.lastTime >= a.duration ==>
              res == Ok(Advanced(a.(t := t, applying := false, lastTime := t), 0.0, false))
    ensures var t := a.t + delta;
            !a.applying && t - a.lastTime >= a.nextGap ==>
              res == Ok(Advanced(Adder(t, true, t, draw.gap, draw.duration, draw.amp), 0.0, false))
    ensures var t := a.t + delta;
            !a.applying && t - a.lastTime < a.nextGap ==>
              res == Ok(Advanced(a.(t := t), 0.0, false))
  {
    var t := a.t + delta;
    var elapsed := t - a.lastTime;
    if a.applying then
      if elapsed >= a.duration then
        Ok(Advanced(a.(t := t, applying := false, lastTime := t), 0.0, false))
      else if a.duration == 0.0 then
        Err(ZeroDivisionError)
      else
        Ok(Advanced(a.(t := t), SpikeAmp(elapsed, a.duration, a.amp), true))
    else if elapsed >= a.nextGap then
      Ok(Advanced(a.(t := t, nextGap := draw.gap, duration := draw.duration, amp := draw.amp,
                     applying := true, lastTime := t), 0.0, false))
    else
      Ok(Advanced(a.(t := t), 0.0, false))
  }

  /** The clock never runs behind the last spike boundary. */
  predicate Valid(a: Adder)
  {
    a.lastTime <= a.t
  }

  /** A freshly constructed adder satisfies the clock invariant. */
  lemma InitialIsValid(gap: real)
    ensures Valid(Initial(gap))
  {
  }

  /**
   * With a non-negative step the clock invariant is kept, no call divides by
   * zero, and the added amplitude never exceeds the peak of the spike in
   * progress.
   */
  lemma AmplitudeBounded(a: Adder, delta: real, draw: Draw)
    requires Valid(a) && delta >= 0.0
    ensures AddAnomaly(a, delta, draw).Ok?
    ensures Valid(AddAnomaly(a, delta, draw).value.adder)
    ensures Abs(AddAnomaly(a, delta, draw).value.amp) <= Abs(a.amp)
  {
    var e := a.t + delta - a.lastTime;
    if a.applying && e < a.duration {
      SpikeAmpBounded(e, a.duration, a.amp);
    }
  }
}

=== FILE: stats.dfy ===
/**
 * Sample statistics over readings (`arr_mean`, `arr_std` in
 * anomaly_detector.py) and the moment facts the streaming detectors rely on.
 *
 * Readings are exact reals. `math.sqrt` is not computed: wherever the code
 * takes a square root, the model receives the root from its caller and
 * requires `IsRoot(v, root)`.
 */
module Stats {

  /** Sum of the readings, accumulated from the front as Python's `sum` does. */
  function Sum(s: seq<real>): real
  {
    if |s| == 0 then 0.0 else Sum(s[..|s| - 1]) + s[|s| - 1]
  }

  /** `arr_mean`: defined only for a non-empty sample (Python divides by `len`). */
  function Mean(s: seq<real>): (r: real)
    requires |s| > 0
    ensures (|s| as real) * r == Sum(s)
  {
    Sum(s) / (|s| as real)
  }

  /**
   * The square of `y`. `Same` is the identity: routing the second factor
   * through it stops the verifier's nonlinear arithmetic from expanding the
   * square of a compound term such as `x - m` into a polynomial, which it
   * otherwise does at every use and which makes the proofs about sums of
   * squares too costly. `SquareIsProduct` recovers `y * y` where needed.
   */
  function Square(y: real): real
  {
    y * Same(y)
  }

  function Same(y: real): real
  {
    y
  }

  /** Sum of squared deviations of the readings from `m`. */
  function SqDev(s: seq<real>, m: real): real
  {
    if |s| == 0 then 0.0 else SqDev(s[..|s| - 1], m) + Square(s[|s| - 1] - m)
  }

  /** The population variance that `arr_std` takes the square root of (divides by N). */
  function PopVariance(s: seq<real>): (r: real)
    requires |s| > 0
    ensures r >= 0.0
  {
    SqDevNonNegative(s, Mean(s));
    SqDev(s, Mean(s)) / (|s| as real)
  }

  /** `r` is the value `math.sqrt(v)` returns, over exact reals. */
  predicate IsRoot(v: real, r: real)
  {
    r >= 0.0 && Square(r) == v
  }

  /** A square root is zero exactly when its radicand is. */
  lemma RootZeroIff(v: real, r: real)
    requires IsRoot(v, r)
    ensures r == 0.0 <==> v == 0.0
  {
    if r != 0.0 {
      SquarePositive(r);
    }
  }

  /** Every reading equals the first one. */
  predicate Constant(s: seq<real>)
  {
    forall i | 0 <= i < |s| :: s[i] == s[0]
  }

  lemma SumAppend(s: seq<real>, x: real)
    ensures Sum(s + [x]) == Sum(s) + x
  {
    assert (s + [x])[..|s|] == s;
  }

  lemma SqDevAppend(s: seq<real>, m: real, x: real)
    ensures SqDev(s + [x], m) == SqDev(s, m) + Square(x - m)
  {
    assert (s + [x])[..|s|] == s;
  }

  /** A sum of readings that all lie in [lo, hi] lies in [n*lo, n*hi]. */
  lemma {:induction false} SumBetween(s: seq<real>, lo: real, hi: real)
    requires forall i | 0 <= i < |s| :: lo <= s[i] <= hi
    ensures (|s| as real) * lo <= Sum(s) <= (|s| as real) * hi
  {
    if |s| > 0 {
      var p := s[..|s| - 1];
      assert forall i | 0 <= i < |p| :: p[i] == s[i];
      SumBetween(p, lo, hi);
      assert (|s| as real) * lo == (|p| as real) * lo + lo;
      assert (|s| as real) * hi == (|p| as real) * hi + hi;
    }
  }

  /** `arr_mean` lies between the smallest and the largest reading. */
  lemma MeanBetween(s: seq<real>, lo: real, hi: real)
    requires |s| > 0
    requires forall i | 0 <= i < |s| :: lo <= s[i] <= hi
    ensures lo <= Mean(s) <= hi
  {
    var n := |s| as real;
    SumBetween(s, lo, hi);
    DivMono(n * lo, Sum(s), n);
    DivMono(Sum(s), n * hi, n);
    DivCancel(lo, n);
    DivCancel(hi, n);
  }

  /** The mean of a constant sample is that constant. */
  lemma MeanOfConstant(s: seq<real>)
    requires |s| > 0
    requires Constant(s)
    ensures Mean(s) == s[0]
  {
    MeanBetween(s, s[0], s[0]);
  }

  lemma {:induction false} SqDevNonNegative(s: seq<real>, m: real)
    ensures SqDev(s, m) >= 0.0
  {
    if |s| > 0 {
      SqDevNonNegative(s[..|s| - 1], m);
      SquareNonNegative(s[|s| - 1] - m);
    }
  }

  /** The squared deviations sum to zero exactly when every reading equals `m`. */
  lemma {:induction false} SqDevZeroIff(s: seq<real>, m: real)
    ensures SqDev(s, m) == 0.0 <==> forall i | 0 <= i < |s| :: s[i] == m
  {
    if |s| > 0 {
      var p := s[..|s| - 1];
      var d := s[|s| - 1] - m;
      SqDevZeroIff(p, m);
      SqDevNonNegative(p, m);
      SquareNonNegative(d);
      if forall i | 0 <= i < |s| :: s[i] == m {
        assert forall i | 0 <= i < |p| :: p[i] == m;
        assert d == 0.0;
      } else {
        var j :| 0 <= j < |s| && s[j] != m;
        if j == |s| - 1 {
          SquarePositive(d);
        } else {
          assert p[j] != m;
          assert SqDev(p, m) > 0.0;
        }
        assert SqDev(s, m) > 0.0;
      }
    }
  }

  /**
   * `arr_std` is zero exactly when the sample is constant: the population
   * variance vanishes iff all readings are equal.
   */
  lemma VarianceZeroIffConstant(s: seq<real>)
    requires |s| > 0
    ensures PopVariance(s) >= 0.0
    ensures PopVariance(s) == 0.0 <==> Constant(s)
  {
    var m := Mean(s);
    var n := |s| as real;
    SqDevNonNegative(s, m);
    SqDevZeroIff(s, m);
    DivMono(0.0, SqDev(s, m), n);
    if Constant(s) {
      MeanOfConstant(s);
      assert SqDev(s, m) == 0.0;
    } else {
      assert s[0] != m || exists i | 0 <= i < |s| :: s[i] != m;
      assert SqDev(s, m) != 0.0;
      DivPositive(SqDev(s, m), n);
    }
  }

  /** Sum of the deviations of the readings from `m`. */
  function DevSum(s: seq<real>, m: real): real
  {
    if |s| == 0 then 0.0 else DevSum(s[..|s| - 1], m) + (s[|s| - 1] - m)
  }

  /** `t * t <= n * q`, kept behind a name so the solver expands it only on demand. */
  predicate SquareBound(t: real, n: real, q: real)
  {
    t * t <= n * q
  }

  /** The deviations from `m` sum to the total minus n copies of `m`. */
  lemma {:induction false} DevSumShift(s: seq<real>, m: real)
    ensures DevSum(s, m) == Sum(s) - (|s| as real) * m
  {
    if |s| > 0 {
      var p := s[..|s| - 1];
      DevSumShift(p, m);
      assert (|s| as real) * m == (|p| as real) * m + m;
    }
  }

  /** Deviations from the sample mean cancel out. */
  lemma DevSumAtMean(s: seq<real>)
    requires |s| > 0
    ensures DevSum(s, Mean(s)) == 0.0
  {
    var n := |s| as real;
    DevSumShift(s, Mean(s));
    assert n * (Sum(s) / n) == Sum(s);
  }

  /**
   * Arithmetic step of Cauchy-Schwarz: if sd^2 <= k*q, then appending one term
   * d gives (sd + d)^2 <= (k + 1) * (q + d^2).
   */
  lemma CauchySchwarzStep(k: real, sd: real, q: real, d: real, total: real, sq: real, n: real)
    requires k >= 0.0
    requires SquareBound(sd, k, q)
    requires k == 0.0 ==> sd == 0.0 && q == 0.0
    requires total == sd + d && sq == q + Square(d) && n == k + 1.0
    ensures SquareBound(total, n, sq)
  {
    var gap := q + k * d * d - 2.0 * sd * d;
    if k > 0.0 {
      SquareNonNegative(sd - k * d);
      assert (sd - k * d) * (sd - k * d) == sd * sd - 2.0 * k * sd * d + k * k * d * d;
      assert k * gap == k * q + k * k * d * d - 2.0 * k * sd * d;
      FactorNonNegative(k, gap);
    } else {
      SquareNonNegative(d);
    }
    assert total * total == sd * sd + 2.0 * sd * d + d * d;
    assert n * sq == k * q + q + k * d * d + d * d;
  }

  /** Cauchy-Schwarz over deviations: (sum of (x - m))^2 <= n * sum of (x - m)^2. */
  lemma {:induction false} CauchySchwarz(s: seq<real>, m: real)
    ensures SquareBound(DevSum(s, m), |s| as real, SqDev(s, m))
  {
    if |s| > 0 {
      var p := s[..|s| - 1];
      CauchySchwarz(p, m);
      CauchySchwarzStep(|p| as real, DevSum(p, m), SqDev(p, m), s[|s| - 1] - m,
                        DevSum(s, m), SqDev(s, m), |s| as real);
    }
  }

  /** `n * d^2 <= (n - 1) * sq`: one deviation against the total squared deviation. */
  predicate ShareBound(d: real, n: real, sq: real)
  {
    n * (d * d) <= (n - 1.0) * sq
  }

  /** Arithmetic core of Samuelson's inequality. */
  lemma SamuelsonStep(k: real, sd: real, q: real, d: real, n: real, sq: real)
    requires k >= 0.0 && n == k + 1.0
    requires SquareBound(sd, k, q) && sd == -d
    requires sq == q + Square(d)
    ensures ShareBound(d, n, sq)
  {
    assert sd * sd == d * d;
    assert n * (d * d) == k * (d * d) + d * d;
    assert (n - 1.0) * sq == k * q + k * (d * d);
  }

  /** Samuelson's inequality about any centre `m` from which the deviations cancel. */
  lemma NewestDeviationBoundAt(s: seq<real>, m: real)
    requires |s| > 0
    requires DevSum(s, m) == 0.0
    ensures ShareBound(s[|s| - 1] - m, |s| as real, SqDev(s, m))
  {
    var p := s[..|s| - 1];
    CauchySchwarz(p, m);
    SamuelsonStep(|p| as real, DevSum(p, m), SqDev(p, m), s[|s| - 1] - m, |s| as real, SqDev(s, m));
  }

  /**
   * Samuelson's inequality for the newest reading: its squared deviation from
   * the sample mean is at most (n - 1)/n of the total squared deviation.
   */
  lemma NewestDeviationBound(s: seq<real>)
    requires |s| > 0
    ensures ShareBound(s[|s| - 1] - Mean(s), |s| as real, SqDev(s, Mean(s)))
  {
    DevSumAtMean(s);
    NewestDeviationBoundAt(s, Mean(s));
  }

  /**
   * The convex update both moving-average detectors apply to their moments:
   * weight `a` on the history `prev`, weight `1 - a` on the new value `x`.
   */
  function Blend(a: real, prev: real, x: real): real
  {
    a * prev + (1.0 - a) * x
  }

  /** Between two values whenever the weight is in [0, 1]. */
  lemma BlendBetween(a: real, prev: real, x: real)
    ensures 0.0 <= a <= 1.0 ==>
              (prev <= x ==> prev <= Blend(a, prev, x) <= x) &&
              (x <= prev ==> x <= Blend(a, prev, x) <= prev)
  {
    if 0.0 <= a <= 1.0 {
      var b := Blend(a, prev, x);
      assert b - prev == (1.0 - a) * (x - prev);
      assert x - b == a * (x - prev);
      if prev <= x {
        MulNonNegative(1.0 - a, x - prev);
        MulNonNegative(a, x - prev);
      } else {
        MulNonNegative(1.0 - a, prev - x);
        MulNonNegative(a, prev - x);
      }
    }
  }

  /**
   * The spread of blended moments: the history's spread scaled by `a`, plus
   * a non-negative term for how far the new value lies from the prev first
   * moment.
   */
  lemma BlendSpread(a: real, s1: real, s2: real, x: real)
    ensures Blend(a, s2, x * x) - Blend(a, s1, x) * Blend(a, s1, x)
         == a * (s2 - s1 * s1) + (a * (1.0 - a)) * ((s1 - x) * (s1 - x))
  {
  }

  /**
   * A convex update of a first and a second moment keeps the second moment at
   * least the square of the first: the variance estimate never goes negative.
   */
  lemma ConvexKeepsSpread(a: real, s1: real, s2: real, x: real)
    ensures 0.0 <= a <= 1.0 && s2 >= s1 * s1 ==>
              Blend(a, s2, x * x) >= Blend(a, s1, x) * Blend(a, s1, x)
  {
    if 0.0 <= a <= 1.0 && s2 >= s1 * s1 {
      BlendSpread(a, s1, s2, x);
      MulNonNegative(a, s2 - s1 * s1);
      MulNonNegative(a, 1.0 - a);
      SquareNonNegative(s1 - x);
      SquareIsProduct(s1 - x);
      MulNonNegative(a * (1.0 - a), (s1 - x) * (s1 - x));
    }
  }

  // Small facts of real arithmetic the solver does not find unaided.

  lemma MulNonNegative(a: real, b: real)
    requires a >= 0.0 && b >= 0.0
    ensures a * b >= 0.0
  {
  }

  lemma SquareNonNegative(y: real)
    ensures Square(y) >= 0.0
  {
  }

  lemma SquarePositive(y: real)
    requires y != 0.0
    ensures Square(y) > 0.0
  {
  }

  lemma SquareIsProduct(y: real)
    ensures Square(y) == y * y
  {
  }

  lemma FactorNonNegative(k: real, g: real)
    requires k > 0.0 && k * g >= 0.0
    ensures g >= 0.0
  {
  }

  lemma DivMono(a: real, b: real, n: real)
    requires a <= b && n > 0.0
    ensures a / n <= b / n
  {
  }

  lemma DivCancel(a: real, n: real)
    requires n > 0.0
    ensures (n * a) / n == a
  {
  }

  lemma DivTimes(a: real, b: real)
    requires b != 0.0
    ensures (a / b) * b == a
  {
  }

  lemma DivPositive(a: real, n: real)
    requires a > 0.0 && n > 0.0
    ensures a / n > 0.0
  {
  }

  lemma MulPositive(a: real, b: real)
    requires a > 0.0 && b > 0.0
    ensures a * b > 0.0
  {
  }

  lemma MulStrict(t: real, z: real)
    requires 0.0 <= t < z
    ensures t * t < z * z
  {
    assert z * z - t * t == (z - t) * (z + t);
    MulPositive(z - t, z + t);
  }

  lemma ProductSign(a: real, b: real)
    requires a >= 0.0
    ensures b >= 0.0 ==> a * b >= 0.0
  {
    if b >= 0.0 {
      MulNonNegative(a, b);
    }
  }

  lemma CancelLeft(k: real, a: real, b: real)
    requires k > 0.0 && k * a <= k * b
    ensures a <= b
  {
  }

  lemma LeSubst(a: real, b: real, c: real, e: real)
    requires a <= b && a == c && b == e
    ensures c <= e
  {
  }

  lemma DivNonNegative(a: real, b: real)
    requires a >= 0.0 && b > 0.0
    ensures a / b >= 0.0
  {
  }

  lemma ZeroQuotient(q: real, d: real)
    requires d > 0.0 && q * d == 0.0
    ensures q == 0.0
  {
  }

  lemma MulMono(a: real, b: real, p: real, q: real)
    requires 0.0 <= a <= b && 0.0 <= p <= q
    ensures a * p <= b * q
  {
    MulNonNegative(b - a, p);
    MulNonNegative(b, q - p);
  }

  lemma DivSub(a: real, b: real, h: real)
    requires h != 0.0
    ensures (a - b) / h == a / h - b / h
  {
  }

  lemma DivSelf(h: real)
    requires h != 0.0
    ensures h / h == 1.0
  {
  }

  lemma DivScale(k: real, h: real)
    requires h != 0.0
    ensures (k * h) / h == k
  {
  }
}
